=== FILE: README.md ===
# sabi evaluation core, modelled in Dafny

This project models `source/api.c` of the sabi ACPI AML interpreter: the layer
between platform code and the namespace built from firmware bytecode. It covers

- the path-to-namestring conversion (`convert_path`) and the prefix sentinel of
  `sabi_resolve_path` — module `NamePaths` (`namepath.dfy`);
- the stateless pre-order cursor `sabi_next_node` over the namespace tree —
  module `TreeWalk` (`tree.dfy`), over an index arena whose shape is the
  `WellFormed` predicate (single root without parent or sibling, parent links
  one level up, first children and siblings consistent with parents);
- the value lifecycle `sabi_clone_data` / `sabi_clean_data` — module `Values`
  (`values.dfy`); host allocations are recorded as traces of `Block`s
  (element arrays and byte stores) so that "every block released exactly
  once" is a multiset equation;
- the invocation boundary `sabi_eval_method` / `sabi_eval_node` — module `Eval`
  (`eval.dfy`); the observable effects are recorded as a sequence of `Step`s
  (result reset, context allocation, argument binding, body, result copy,
  context release);
- device identity: `char_to_hex`, `sabi_eisaid` and `sabi_check_pnp_id` —
  module `DeviceId` (`pnp.dfy`); IDs are byte sequences, packing is done in
  `bv32` as the C `uint32_t` arithmetic does it, on a little-endian host.

The collaborators that `api.c` calls but does not define — the term-list
executor, the operand reader, the buffer-field accessor and the namespace
existence check — are the function-valued fields of `Eval.Env`; the clone's
buffer-field read is the `read` parameter of `Values.Clone`.

Three behaviours of the code that a reader might not expect, which the model
keeps:
- `sabi_eval_method` resets the result only when a result slot is passed
  (`retv` non-null); the model has a `wantResult` flag for this.
- `sabi_check_pnp_id` reads `data.integer.value` whatever the evaluated value
  is; the model only lets an `Integer` match (see "Left out").
- `sabi_next_node` never yields the root only because the root has neither
  parent nor sibling; the model makes that part of `TreeWalk.WellFormed`.

## Model

| member | source | states |
|---|---|---|
| NamePaths.MarkerRun | source/api.c:19-22 | the prefix length covers only `\`/`^` characters and stops at the first character that is neither (the run is maximal) |
| NamePaths.PadTo4 | source/api.c:28-31 | padding yields the shortest extension by `_` characters whose length is a multiple of four |
| NamePaths.Scan | source/api.c:24-46 | the encoded value always has a length that is a multiple of four, extends what was already written, and contains no `.` |
| NamePaths.Convert | source/api.c:10-50 | `prefix` is exactly the maximal leading run of `\`/`^`, copied in order; `value` is four-aligned and dot-free |
| NamePaths.ResolvePathName | source/api.c:83-92 | the intended sentinel (see "Findings"): the store always receives a non-empty prefix; it starts with `x`, and is exactly `x`, precisely when the path had no markers, otherwise it is the markers unchanged; the value is the converted one |
| NamePaths.ResolvePrefixAsWritten | source/api.c:83-92 | the prefix as the code leaves it: without markers it is `x` followed by the stale bytes of the uninitialised buffer up to their first NUL; with markers it is the markers; the value is the converted one |
| NamePaths.PadAfterAligned | source/api.c:28-31 | padding after a four-aligned prefix depends only on what follows it |
| NamePaths.ScanIsSegmentwise | source/api.c:24-46 | the single running counter pads each dot-separated segment on its own: the value is the segments, each padded, concatenated |
| NamePaths.ConvertIsPaddedSegments | source/api.c:10-50 | the value is the padded segments of the text after the prefix, joined without separators |
| NamePaths.SegmentsKeepCharacters | source/api.c:24-40 | the segments hold exactly the non-dot characters after the prefix, in order (later `\`/`^` included) |
| NamePaths.AlignedSegmentsNeedNoPadding | source/api.c:42-46 | segments already a multiple of four long receive no padding |
| NamePaths.FullSegmentsEncodeVerbatim | source/api.c:24-46 | a path of full four-character segments encodes to its non-dot characters with nothing inserted |
| NamePaths.ScanRun | source/api.c:34-38 | a run of non-dot characters is appended unchanged |
| NamePaths.ScanSegment | source/api.c:26-33 | a dot pads what was written so far and is itself dropped |
| NamePaths.ScanLast | source/api.c:42-46 | the last segment is padded at the end of input |
| NamePaths.ExampleFullNames | source/api.c:10-50 | `_SB_.PCI0.VGA_` encodes to `_SB_PCI0VGA_` with an empty prefix |
| NamePaths.ExampleRootPath | source/api.c:10-50 | `\_SB.PCI0` encodes to prefix `\` and value `_SB_PCI0` |
| NamePaths.ExampleParentPath | source/api.c:10-50 | `^^FOO` encodes to prefix `^^` and value `FOO_` |
| NamePaths.ExampleResolveSentinel | source/api.c:83-92 | with the intended sentinel, a marker-free path gets the prefix `x` |
| NamePaths.StaleBytesReachTheStore | source/api.c:85-90 | for a marker-free path the prefix as written equals the intended `x` if and only if no stale byte follows the sentinel |
| NamePaths.ExampleStaleSentinel | source/api.c:85-90 | `FOO` with a stale `Q` after the sentinel reaches the store with prefix `xQ`, not `x` |
| NamePaths.AsWrittenAgreesWithoutStaleBytes | source/api.c:83-92 | with markers, or with a zero byte after the sentinel, the code as written gives the intended prefix |
| TreeWalk.Climb | source/api.c:110-124 | the upward climb stays in the arena, never lands on the root and never goes deeper than where it started |
| TreeWalk.Next | source/api.c:94-127 | the cursor never yields the root and stays in the arena; from `None` it yields exactly the root's first child (so `None` for a childless root); descending from a node with a child yields exactly that first child |
| TreeWalk.ClimbFindsNearestSibling | source/api.c:110-124 | the climb returns the next sibling of the nearest node among the start and its ancestors that has one, and `None` only when none has |
| TreeWalk.NextFindsNearestSibling | source/api.c:102-124 | without descending (or from a leaf) the cursor yields the sibling of the node or of its nearest ancestor that has one, and `None` exactly when there is none |
| TreeWalk.NextSkipsSubtree | source/api.c:102-124 | without descending (or from a leaf) the cursor never yields a descendant of the node |
| TreeWalk.ChildlessRootEndsWalk | source/api.c:96-100 | starting a walk over a childless root ends it at once |
| Values.Clone | source/api.c:241-277 | the copy allocates exactly the blocks the source owns (one per package, empty ones included, one per buffer), owns the same blocks, keeps tag, package length and buffer bytes, turns a buffer field into the integer read from it, and contains no buffer field; a package's element array is allocated before anything of its elements (the element-wise statement is `Values.CloneIsElementwise`) |
| Values.ClonePackage | source/api.c:255-264 | a package copy is again a package of the same length whose element i is the clone of the source's element i, allocates the element array first and in total exactly the element array plus the elements' blocks, and holds no buffer field |
| Values.CloneIsElementwise | source/api.c:255-264 | element i of a package's copy is the clone of element i, so everything `Values.Clone` states holds at every depth of nesting |
| Values.ExampleNestedField | source/api.c:255-276 | a buffer field inside a package is copied as the integer read from it |
| Values.CloneAll | source/api.c:255-264 | the element array is cloned element by element, allocating exactly the blocks the elements own, and no copied element holds a buffer field |
| Values.Clean | source/api.c:217-239 | cleaning leaves `Null`, frees exactly the blocks the value owns, and frees a package's element array after its elements |
| Values.CleanAll | source/api.c:225-234 | the element loop frees exactly the blocks the elements own |
| Values.CloneSlot | source/api.c:241-252 | copying a slot onto itself changes nothing and allocates nothing; otherwise only the destination changes, to the deep copy of the source |
| Values.CloneThenCleanBalances | source/api.c:217-277 | cleaning a clone frees exactly the blocks the clone allocated, each once |
| Values.CleanNullFreesNothing | source/api.c:217-239 | cleaning `Null` frees nothing |
| Values.CloneOfFieldFreeIsEqual | source/api.c:252-270 | a value without buffer fields is copied exactly |
| Values.CloneIsIdempotent | source/api.c:241-277 | cloning a clone gives the same value |
| Eval.Prologue | source/api.c:152-162 | the context is allocated first, then argument `i` is bound for each `i` in order, then the body runs; the context is allocated once and not released |
| Eval.InvokeSteps | source/api.c:152-170 | after the optional reset the context is allocated, then the arguments are bound in order, then the body runs, then the result is copied (only when wanted); the context is allocated once and released once, as the last step |
| Eval.Invoke | source/api.c:152-170 | the context runs in the method's scope and byte range with deep copies of the caller's arguments; the result is the copy of the return slot |
| Eval.EvalMethod | source/api.c:129-171 | the result is reset first; a non-method is a type error and an arity mismatch an argument error, both with no context, no body run and no allocation; on success the effects are exactly those of an invocation (context allocated before binding and body, body run, context released last) and the result is the copy of the return slot |
| Eval.ReadAndCopy | source/api.c:196-214 | a name or field evaluates to the deep copy of what the operand reader returns |
| Eval.EvalNode | source/api.c:173-215 | the result is reset first; a method with arguments is an argument error, a non-evaluable object a type error; a method without arguments is invoked with none, through exactly one `sabi_eval_method` trace that allocates one context, runs the body, copies the result and releases the context last; a name or field is read and copied; the result owns exactly the blocks allocated for it |
| Eval.ArityMismatchAllocatesNothing | source/api.c:137-150 | a call with the wrong argument count does nothing but reset the result |
| Eval.ArgumentsAreCopies | source/api.c:157-160 | for arguments without buffer fields, the context's arguments equal the caller's |
| Eval.ResultReleaseBalances | source/api.c:211-212 | releasing an evaluated result frees exactly what the evaluation allocated for it |
| DeviceId.CharToHex | source/api.c:52-67 | the result is always below 16 and is 0 for a non-hex character |
| DeviceId.HexCharRoundTrip | source/api.c:52-67 | `char_to_hex` recovers every digit value from its upper- and lower-case digit |
| DeviceId.CharToHexRoundTrip | source/api.c:52-67 | every hex digit is the upper-case digit of its value, up to case |
| DeviceId.ByteSwap | source/api.c:292-296 | the swapped word's memory bytes are the original's in reverse order |
| DeviceId.ByteSwapInvolutive | source/api.c:292-296 | swapping twice gives the word back |
| DeviceId.EisaId | source/api.c:279-299 | the result is the byte reverse of the packed accumulator |
| DeviceId.Packed | source/api.c:284-290 | whatever the letters, the four digit values land in bits 12, 8, 4 and 0; for letters in 0x40..0x5F the letter offsets land in bits 26, 21 and 16 |
| DeviceId.PackedLayout | source/api.c:284-290 | the accumulator holds the letter offsets at bits 26, 21 and 16 and the digits at bits 12, 8, 4 and 0 |
| DeviceId.EisaIdRoundTrip | source/api.c:279-299 | decoding the ID of a well-formed `AAA####` text gives the text back, digits in upper case |
| DeviceId.ExamplePnp0501 | source/api.c:279-299 | `PNP0501` packs to 0x41D00501 and encodes to 0x0105D041 |
| DeviceId.ReleaseProbe | source/api.c:310-312 | the value is cleaned right after its integer is taken; the clean frees exactly the blocks the value owns, which are the blocks allocated for it |
| DeviceId.ProbeNode | source/api.c:310-312 | the probe's value and allocations are those of evaluating the node; the blocks allocated and the blocks freed by the immediate clean are both exactly the blocks the value owns |
| DeviceId.ProbeDecidesMatch | source/api.c:310-317 | once a child is found, the probe's value matches exactly when the child matches |
| DeviceId.CheckCid | source/api.c:319-329 | `_CID` matches exactly when it exists and evaluates to an integer whose low 32 bits are the ID; it is evaluated exactly when it exists; its value is released (that each probe is the evaluation of the child is `DeviceId.CidProbesAreEvaluations`) |
| DeviceId.CheckFromHid | source/api.c:306-331 | once `_HID` is found it is evaluated first; `_CID` is evaluated after it exactly when it exists and `_HID` did not match; the result is a match exactly when either child matches; every value is released (that each probe is the evaluation of its child is `DeviceId.HidProbesAreEvaluations`) |
| DeviceId.CheckPnpId | source/api.c:301-332 | the result is a match exactly when `_HID` or `_CID` exists and evaluates to the ID; the objects evaluated are exactly `_HID` if it exists, followed by `_CID` if it exists and `_HID` did not match; every evaluated value is released in full (that each probe is the evaluation of its child is `DeviceId.ProbesAreEvaluations`) |
| DeviceId.CidProbesAreEvaluations | source/api.c:319-329 | the `_CID` probe, when there is one, is the evaluation of the `_CID` child cleaned at once |
| DeviceId.HidProbesAreEvaluations | source/api.c:306-331 | once `_HID` is found, its probe and any `_CID` probe after it are the evaluations of those children, each cleaned at once |
| DeviceId.ProbesAreEvaluations | source/api.c:301-332 | every probe names a child that exists and is exactly the evaluation of that child followed by its clean, so every block evaluating `_HID` or `_CID` allocated for the value is freed |

## Left out

- `sabi_resolve_child` and `sabi_resolve_search`: they only hand `Convert(name).value` to the namespace store, which is not part of this model; only the sentinel rule of `sabi_resolve_path` is stated.
- The namespace store (`sabi_ns_exists`, `sabi_ns_search`, `sabi_ns_find`, `sabi_ns_root`): not part of this model; `Eval.Env.lookup` stands for `sabi_ns_exists` and the root is `TreeWalk.Tree.root`.
- The term-list executor `sabi_parse_termlist`: an abstract function from the context to the final return slot; what it does, including re-entrant calls to `sabi_eval_method`, is not modelled.
- `sabi_read_operand` and `sabi_access_buffer_field`: abstract functions. What the operand reader allocates for the temporary in `sabi_eval_node` (which that function never cleans) is not modelled.
- `sabi_new_state` / `sabi_free_state` and the host allocator: replaced by the `NewState`/`FreeState` steps and the `Block` traces; what `sabi_free_state` releases of the argument copies is not part of this model, so `argAllocations` only records what the context owns.
- `memcpy` of buffer bytes and the shallow field copy `*dptr = *sptr`: values are immutable, so a copy is the value itself. A string's storage is shared between the source and the clone, because only its pointer is copied; the model treats this shared storage as a value that owns no block.
- The fixed-size `sabi_name_t` buffers: sequences are unbounded, and the C code does not check overflow. The terminators are modelled only where they go missing (see "Findings").
- NamePaths.Convert: one character stands for one byte. Paths are taken to be ASCII with no NUL. The C code counts bytes, so a multi-byte UTF-8 character pads differently, and an embedded NUL ends the C string where `Scan` would go on.
- Big-endian hosts: `sabi_eisaid` is modelled on a little-endian host only.
- DeviceId.EisaId: bytes are unsigned; on a platform with signed `char`, bytes of 0x80 and above would be promoted to negative values, which is not modelled. Letters outside 0x40..0x5F wrap around in `uint32_t` exactly as in C, but the round trip is only stated for well-formed IDs.
- DeviceId.CheckCid: when `_CID`'s value is not an integer, or its evaluation failed, the source compares whatever bits the value union holds; the model treats these cases as no match.
- DeviceId.CheckFromHid: when `_HID`'s or `_CID`'s value is not an integer, or its evaluation failed, the source compares whatever bits the value union holds; the model treats these cases as no match.
- DeviceId.CheckPnpId: when the evaluated value is not an integer, or the evaluation failed, the source compares whatever bits the value union holds; the model treats these cases as no match.
- Eval.EvalMethod: `argc` is the length of `argv`, so a negative argument count cannot be expressed.
- TreeWalk.WellFormed uses exact depths (a child is one level below its parent); cyclic parent chains, which the source does not defend against, are excluded.
- Concurrency and locking: the file has none; serialising access is the embedder's concern.

## Findings

| source | as written | input that shows it | evidently intended | confidence | as-written member | corrected member |
|---|---|---|---|---|---|---|
| source/api.c:85-90 | `fqn` is an uninitialised local. For a path without markers, `convert_path` writes the prefix's only terminator at index 0, and the sentinel `x` then overwrites it, so the prefix is `x` followed by whatever bytes the stack held | path `FOO` with a nonzero stale byte, say `Q`, at `fqn.prefix[1]`: the store receives prefix `xQ…` | the prefix is exactly `x`, for example by also writing a terminator at index 1 | medium (not executed); whether it matters depends on how `sabi_ns_find` reads the prefix, which is not part of this model | NamePaths.ResolvePrefixAsWritten, NamePaths.ExampleStaleSentinel, NamePaths.StaleBytesReachTheStore | NamePaths.ResolvePathName |

=== FILE: eval.dfy ===
/**
  The invocation boundary: `sabi_eval_method` and `sabi_eval_node`.

  The bytecode executor (`sabi_parse_termlist`), the operand reader
  (`sabi_read_operand`), the buffer-field accessor and the namespace lookup are
  external; they are the function-valued fields of `Env`. What happens at the
  boundary is recorded as a sequence of `Step`s, so that the order of the
  observable effects (result reset, context allocation, argument binding,
  body execution, result copy, context release) can be stated.
 */
module Eval {
  import opened Optional
  import opened Values

  type NodeId = nat

  type Uint8 = x: int | 0 <= x < 256

  /** `sabi_object_t`: the payload of a namespace node, as far as evaluation sees it. */
  datatype Object =
    | Method(argc: Uint8, start: nat, end: nat)
    | Name(data: Value)
    | Field(unit: nat)
    | IndexField(unit: nat)
    | Other(kind: nat)   // devices, scopes and the like: nothing to evaluate

  /** What `sabi_read_operand` is asked to read: a stored value or a field object. */
  datatype Operand = DataOperand(data: Value) | ObjectOperand(obj: Object)

  /** The execution context (`state_t`) a method body runs in. */
  datatype Context = Context(argv: seq<Value>, scope: NodeId, aml: nat, end: nat)

  /** The collaborators this core calls but does not define. */
  datatype Env = Env(
    objectOf: NodeId -> Object,
    run: Context -> Value,                     // the return slot after the body ran (Null if never set)
    readOperand: Operand -> Value,
    readField: FieldId -> bv64,
    lookup: (NodeId, string) -> Option<NodeId>) // `sabi_ns_exists`

  /** 0, `-SABI_ERROR_TYPE` and `-SABI_ERROR_ARGS`. */
  datatype Status = Success | TypeError | ArgsError

  /** The observable effects at the boundary, named after the calls that cause them. */
  datatype Step =
    | ResetResult      // the caller's result slot is set to Null
    | NewState         // a fresh context is allocated (`sabi_new_state`)
    | BindArg(index: nat)  // argument `index` is deep-copied into the context
    | RunBody          // the executor runs the method body (`sabi_parse_termlist`)
    | ReadOperand      // the operand reader is asked for the value (`sabi_read_operand`)
    | CopyResult       // the value is deep-copied into the caller's result slot
    | FreeState        // the context is released (`sabi_free_state`)

  datatype Evaluation = Evaluation(
    status: Status,
    result: Value,
    context: Option<Context>,
    steps: seq<Step>,
    argAllocations: seq<Block>,     // owned by the context's argument slots
    resultAllocations: seq<Block>)  // owned by the caller's result

  function BindSteps(n: nat): (s: seq<Step>)
    ensures |s| == n
    ensures forall i :: 0 <= i < n ==> s[i] == BindArg(i)
  {
    if n == 0 then [] else BindSteps(n - 1) + [BindArg(n - 1)]
  }

  /** The number of times `s` occurs in `steps`. */
  function Occurrences(steps: seq<Step>, s: Step): nat {
    if |steps| == 0 then 0 else (if steps[0] == s then 1 else 0) + Occurrences(steps[1..], s)
  }

  lemma {:induction false} OccurrencesConcat(a: seq<Step>, b: seq<Step>, s: Step)
    ensures Occurrences(a + b, s) == Occurrences(a, s) + Occurrences(b, s)
  {
    if |a| == 0 {
      assert a + b == b;
    } else {
      assert (a + b)[1..] == a[1..] + b;
      OccurrencesConcat(a[1..], b, s);
    }
  }

  lemma {:induction false} OccurrencesAbsent(a: seq<Step>, s: Step)
    requires s !in a
    ensures Occurrences(a, s) == 0
  {
    if |a| > 0 {
      assert a[0] != s;
      assert s !in a[1..];
      OccurrencesAbsent(a[1..], s);
    }
  }

  /**
    The effects of a successful invocation from the context allocation to the
    body: the allocation, one binding per argument, the body.
   */
  function Prologue(argc: nat): (s: seq<Step>)
    ensures |s| == argc + 2
    ensures s[0] == NewState && s[1 .. argc + 1] == BindSteps(argc) && s[argc + 1] == RunBody
    ensures Occurrences(s, NewState) == 1 && Occurrences(s, FreeState) == 0
    ensures ResetResult !in s && CopyResult !in s
  {
    var binds := BindSteps(argc);
    assert NewState !in binds && FreeState !in binds && CopyResult !in binds && ResetResult !in binds;
    OccurrencesAbsent(binds, NewState);
    OccurrencesAbsent(binds, FreeState);
    OccurrencesConcat([NewState], binds, NewState);
    OccurrencesConcat([NewState], binds, FreeState);
    OccurrencesConcat([NewState] + binds, [RunBody], NewState);
    OccurrencesConcat([NewState] + binds, [RunBody], FreeState);
    var s := [NewState] + binds + [RunBody];
    assert s[1 .. argc + 1] == binds;
    s
  }

  /**
    The effects of a successful invocation, in order: reset of the result (when
    there is one), context allocation, one binding per argument, the body, the
    result copy (when there is a result) and the context release.
   */
  function InvokeSteps(wantResult: bool, argc: nat): (s: seq<Step>)
    ensures |s| == argc + 3 + (if wantResult then 2 else 0)
    ensures wantResult ==>
              && s[0] == ResetResult && s[1] == NewState
              && s[2 .. argc + 2] == BindSteps(argc)
              && s[argc + 2] == RunBody && s[argc + 3] == CopyResult
    ensures !wantResult ==>
              && s[0] == NewState
              && s[1 .. argc + 1] == BindSteps(argc)
              && s[argc + 1] == RunBody
    ensures Occurrences(s, NewState) == 1 && Occurrences(s, FreeState) == 1
    ensures RunBody in s && s[|s| - 1] == FreeState
    ensures wantResult <==> CopyResult in s
  {
    var pro := Prologue(argc);
    if wantResult then
      var s := [ResetResult] + pro + [CopyResult, FreeState];
      assert s[1 .. argc + 3] == pro;
      assert s[2 .. argc + 2] == pro[1 .. argc + 1];
      OccurrencesConcat([ResetResult], pro, NewState);
      OccurrencesConcat([ResetResult], pro, FreeState);
      OccurrencesConcat([ResetResult] + pro, [CopyResult, FreeState], NewState);
      OccurrencesConcat([ResetResult] + pro, [CopyResult, FreeState], FreeState);
      s
    else
      var s := pro + [FreeState];
      assert s[.. argc + 2] == pro;
      assert s[1 .. argc + 1] == pro[1 .. argc + 1];
      OccurrencesConcat(pro, [FreeState], NewState);
      OccurrencesConcat(pro, [FreeState], FreeState);
      s
  }

  /** The part of `sabi_eval_method` after both checks have passed. */
  function Invoke(env: Env, node: NodeId, argv: seq<Value>, wantResult: bool): (r: Evaluation)
    requires env.objectOf(node).Method? && env.objectOf(node).argc == |argv|
    ensures r.status == Success && r.context.Some?
    ensures var ctx := r.context.value;
            && ctx.scope == node
            && ctx.aml == env.objectOf(node).start && ctx.end == env.objectOf(node).end
            && |ctx.argv| == |argv|
            && (forall i :: 0 <= i < |argv| ==> ctx.argv[i] == Clone(argv[i], env.readField).value)
            && multiset(r.argAllocations) == BlocksAll(argv)
            && r.result == (if wantResult then Clone(env.run(ctx), env.readField).value else Null)
    ensures multiset(r.resultAllocations) == Blocks(r.result)
  {
    var obj := env.objectOf(node);
    var args := CloneAll(argv, env.readField);
    var ctx := Context(args.values, node, obj.start, obj.end);
    var out := if wantResult then Clone(env.run(ctx), env.readField) else Copy(Null, []);
    Evaluation(Success, out.value, Some(ctx), InvokeSteps(wantResult, |argv|), args.allocations, out.allocations)
  }

  /**
    `sabi_eval_method(node, argc, argv, retv)`, with `argc` the length of
    `argv` and `wantResult` standing for a non-null `retv`: reset the result,
    then the type check, then the arity check, and only then the invocation.
   */
  function EvalMethod(env: Env, node: NodeId, argv: seq<Value>, wantResult: bool): (r: Evaluation)
    ensures wantResult ==> |r.steps| > 0 && r.steps[0] == ResetResult
    ensures r.status == TypeError <==> !env.objectOf(node).Method?
    ensures r.status == ArgsError <==> env.objectOf(node).Method? && env.objectOf(node).argc != |argv|
    ensures r.status != Success ==>
              && r.result == Null && r.context.None?
              && NewState !in r.steps && RunBody !in r.steps
              && r.argAllocations == [] && r.resultAllocations == []
    ensures r.status == Success ==>
              && r.context.Some?
              && r.steps == InvokeSteps(wantResult, |argv|)
              && RunBody in r.steps
              && Occurrences(r.steps, NewState) == 1
              && Occurrences(r.steps, FreeState) == 1
              && r.steps[|r.steps| - 1] == FreeState
    ensures r.status == Success ==>
              var ctx := r.context.value;
              && ctx.scope == node
              && |ctx.argv| == |argv|
              && (forall i :: 0 <= i < |argv| ==> ctx.argv[i] == Clone(argv[i], env.readField).value)
              && multiset(r.argAllocations) == BlocksAll(argv)
              && (wantResult ==> r.result == Clone(env.run(ctx), env.readField).value)
    ensures !wantResult ==> r.result == Null
    ensures FieldFree(r.result)
    ensures multiset(r.resultAllocations) == Blocks(r.result)
  {
    var obj := env.objectOf(node);
    var reset := if wantResult then [ResetResult] else [];
    if !obj.Method? then
      Evaluation(TypeError, Null, None, reset, [], [])
    else if obj.argc != |argv| then
      Evaluation(ArgsError, Null, None, reset, [], [])
    else
      Invoke(env, node, argv, wantResult)
  }

  /** The tail of `sabi_eval_node` for names and fields: read the operand, copy it out. */
  function ReadAndCopy(env: Env, op: Operand): (r: Evaluation)
    ensures r.status == Success && r.context.None? && r.argAllocations == []
    ensures r.result == Clone(env.readOperand(op), env.readField).value
    ensures multiset(r.resultAllocations) == Blocks(env.readOperand(op))
  {
    var c := Clone(env.readOperand(op), env.readField);
    Evaluation(Success, c.value, None, [ResetResult, ReadOperand, CopyResult], [], c.allocations)
  }

  /**
    `sabi_eval_node(node, retv)`: a method without arguments is invoked, a
    method with arguments is an arity error, a name or field is read and
    copied out, anything else is a type error.
   */
  function EvalNode(env: Env, node: NodeId): (r: Evaluation)
    ensures |r.steps| > 0 && r.steps[0] == ResetResult
    ensures r.status == ArgsError <==> env.objectOf(node).Method? && env.objectOf(node).argc != 0
    ensures r.status == TypeError <==> env.objectOf(node).Other?
    ensures r.status != Success ==>
              && r.result == Null && r.context.None?
              && NewState !in r.steps && r.resultAllocations == []
    ensures r.argAllocations == []
    ensures FieldFree(r.result)
    ensures multiset(r.resultAllocations) == Blocks(r.result)
    ensures env.objectOf(node).Name? ==>
              r.result == Clone(env.readOperand(DataOperand(env.objectOf(node).data)), env.readField).value
    ensures env.objectOf(node).Field? || env.objectOf(node).IndexField? ==>
              r.result == Clone(env.readOperand(ObjectOperand(env.objectOf(node))), env.readField).value
    ensures env.objectOf(node).Method? && env.objectOf(node).argc == 0 ==>
              && r.status == Success
              && r.steps == [ResetResult] + InvokeSteps(true, 0)
              && r.result == Clone(env.run(Context([], node, env.objectOf(node).start, env.objectOf(node).end)),
                                   env.readField).value
  {
    var obj := env.objectOf(node);
    match obj
    case Method(argc, _, _) =>
      if argc != 0 then
        Evaluation(ArgsError, Null, None, [ResetResult], [], [])
      else
        var inner := EvalMethod(env, node, [], true);
        inner.(steps := [ResetResult] + inner.steps)
    case Name(data) => ReadAndCopy(env, DataOperand(data))
    case Field(_) => ReadAndCopy(env, ObjectOperand(obj))
    case IndexField(_) => ReadAndCopy(env, ObjectOperand(obj))
    case Other(_) => Evaluation(TypeError, Null, None, [ResetResult], [], [])
  }

  // ----- Lemmas -----

  /**
    The arity check comes before anything is allocated: a mismatched call
    leaves the result `Null`, creates no context and copies nothing.
   */
  lemma ArityMismatchAllocatesNothing(env: Env, node: NodeId, argv: seq<Value>, wantResult: bool)
    requires env.objectOf(node).Method? && env.objectOf(node).argc != |argv|
    ensures var r := EvalMethod(env, node, argv, wantResult);
            r.status == ArgsError && r.steps == (if wantResult then [ResetResult] else [])
  {
  }

  /**
    The caller keeps its own arguments: what the context holds are copies,
    equal to the originals whenever these contain no buffer fields, and the
    blocks they own mirror the caller's one for one.
   */
  lemma ArgumentsAreCopies(env: Env, node: NodeId, argv: seq<Value>, wantResult: bool)
    requires forall i :: 0 <= i < |argv| ==> FieldFree(argv[i])
    requires env.objectOf(node).Method? && env.objectOf(node).argc == |argv|
    ensures EvalMethod(env, node, argv, wantResult).context.Some?
    ensures EvalMethod(env, node, argv, wantResult).context.value.argv == argv
  {
    var ctx := EvalMethod(env, node, argv, wantResult).context.value;
    forall i | 0 <= i < |argv|
      ensures ctx.argv[i] == argv[i]
    {
      CloneOfFieldFreeIsEqual(argv[i], env.readField);
    }
  }

  /** Releasing an evaluation's result frees exactly what the evaluation allocated for it. */
  lemma ResultReleaseBalances(env: Env, node: NodeId)
    ensures var r := EvalNode(env, node);
            multiset(Clean(r.result).freed) == multiset(r.resultAllocations)
  {
  }
}

=== FILE: namepath.dfy ===
/**
  The path-to-namestring conversion of the interpreter's public API
  (`convert_path` and the prefix sentinel of `sabi_resolve_path`).

  A textual ACPI path such as `\_SB.PCI0` becomes a `NamePath`: the leading
  root (`\`) and parent-scope (`^`) markers go into `prefix`, and the dotted
  segments are concatenated into `value`, each padded with `_` to a multiple of
  four characters (the NameString form of section 20.2.2, "Name Objects
  Encoding", of the ACPI specification).
 */
module NamePaths {

  datatype NamePath = NamePath(prefix: string, value: string)

  /** The root marker `\` and the parent-scope marker `^`. */
  predicate IsMarker(c: char) {
    c == '\\' || c == '^'
  }

  /** Length of the leading run of markers of `path` (the first C loop). */
  function MarkerRun(path: string): (k: nat)
    ensures k <= |path|
    ensures forall i :: 0 <= i < k ==> IsMarker(path[i])
    ensures k < |path| ==> !IsMarker(path[k])
  {
    if |path| > 0 && IsMarker(path[0]) then 1 + MarkerRun(path[1..]) else 0
  }

  function Underscores(n: nat): (u: string)
    ensures |u| == n
    ensures forall i :: 0 <= i < n ==> u[i] == '_'
  {
    if n == 0 then [] else ['_'] + Underscores(n - 1)
  }

  /**
    The padding loop: `s` extended by the fewest underscores that make its
    length a multiple of four.
   */
  function PadTo4(s: string): (p: string)
    ensures |p| % 4 == 0
    ensures s <= p && |p| < |s| + 4
    ensures forall i :: |s| <= i < |p| ==> p[i] == '_'
  {
    s + Underscores((4 - |s| % 4) % 4)
  }

  /**
    The second C loop and the final padding. `value` is everything written so
    far; its length is the C variable `count`, which is never reset between
    segments, so a `.` pads the whole value written so far.
   */
  function Scan(rest: string, value: string): (v: string)
    ensures |v| % 4 == 0
    ensures value <= v
    ensures '.' !in value ==> '.' !in v
    decreases |rest|
  {
    if |rest| == 0 then PadTo4(value)
    else if rest[0] == '.' then Scan(rest[1..], PadTo4(value))
    else Scan(rest[1..], value + [rest[0]])
  }

  /** `convert_path`: split off the marker prefix, then encode the segments. */
  function Convert(path: string): (n: NamePath)
    ensures n.prefix <= path
    ensures forall i :: 0 <= i < |n.prefix| ==> IsMarker(n.prefix[i])
    ensures |n.prefix| < |path| ==> !IsMarker(path[|n.prefix|])
    ensures |n.value| % 4 == 0
    ensures '.' !in n.value
  {
    var k := MarkerRun(path);
    NamePath(path[..k], Scan(path[k..], []))
  }

  /**
    `sabi_resolve_path` hands the store a non-empty prefix: a path without
    markers gets the sentinel `x`, meaning "relative, no markers". This is the
    intended sentinel, a prefix of exactly one `x`; see
    `ResolvePrefixAsWritten` for what the C buffer holds.
   */
  function ResolvePathName(path: string): (n: NamePath)
    ensures |n.prefix| > 0
    ensures n.value == Convert(path).value
    ensures n.prefix[0] == 'x' <==> Convert(path).prefix == []
    ensures n.prefix == "x" <==> Convert(path).prefix == []
    ensures Convert(path).prefix != [] ==> n.prefix == Convert(path).prefix
  {
    var n := Convert(path);
    if n.prefix == [] then n.(prefix := "x") else n
  }

  /**
    The prefix as the C code leaves it. The name buffer is an uninitialised
    local; without markers the only terminator written into the prefix is at
    index 0, and the sentinel overwrites it. Read as a C string the prefix is
    then `x` followed by whatever the buffer held from index 1 up to its first
    NUL: that is `stale`, which is empty only when the stack happened to hold a
    zero byte there.
   */
  function ResolvePrefixAsWritten(path: string, stale: string): (n: NamePath)
    requires '\0' !in stale
    ensures n.value == Convert(path).value
    ensures Convert(path).prefix == [] ==> n.prefix == "x" + stale
    ensures Convert(path).prefix != [] ==> n.prefix == Convert(path).prefix
  {
    var n := Convert(path);
    if n.prefix == [] then n.(prefix := ['x'] + stale) else n
  }

  // ----- Reference definition: split on dots, pad each segment, join -----

  /** The dot-separated segments of `s`; there is always at least one, possibly empty. */
  function Segments(s: string): (segs: seq<string>)
    ensures |segs| >= 1
    ensures forall j :: 0 <= j < |segs| ==> '.' !in segs[j]
  {
    if |s| == 0 then [[]]
    else
      var tail := Segments(s[1..]);
      if s[0] == '.' then [[]] + tail
      else [[s[0]] + tail[0]] + tail[1..]
  }

  /** Each segment padded to four-character units, concatenated without separators. */
  function JoinPadded(segs: seq<string>): (v: string)
    ensures |v| % 4 == 0
  {
    if |segs| == 0 then [] else PadTo4(segs[0]) + JoinPadded(segs[1..])
  }

  function Flatten(segs: seq<string>): string {
    if |segs| == 0 then [] else segs[0] + Flatten(segs[1..])
  }

  /** The characters of `s` other than `.`, in order. */
  function NonDots(s: string): (r: string)
    ensures '.' !in r
    ensures |r| <= |s|
  {
    if |s| == 0 then []
    else if s[0] == '.' then NonDots(s[1..])
    else [s[0]] + NonDots(s[1..])
  }

  // ----- Lemmas -----

  /** Padding only depends on the length modulo four of what follows a four-aligned prefix. */
  lemma PadAfterAligned(x: string, y: string)
    requires |x| % 4 == 0
    ensures PadTo4(x + y) == x + PadTo4(y)
  {
    var fill := Underscores((4 - |y| % 4) % 4);
    assert (|x| + |y|) % 4 == |y| % 4;
    assert PadTo4(x + y) == (x + y) + fill;
    assert (x + y) + fill == x + (y + fill);
  }

  /**
    The C loop's shared counter pads each segment on its own: scanning `rest`
    after `value` yields `value` plus the first segment, padded, followed by the
    remaining segments padded one by one.
   */
  lemma {:induction false} ScanIsSegmentwise(rest: string, value: string)
    ensures Scan(rest, value)
         == PadTo4(value + Segments(rest)[0]) + JoinPadded(Segments(rest)[1..])
    decreases |rest|
  {
    var segs := Segments(rest);
    if |rest| == 0 {
      assert segs == [[]];
      assert value + segs[0] == value;
    } else if rest[0] == '.' {
      var tail := Segments(rest[1..]);
      assert segs == [[]] + tail;
      ScanIsSegmentwise(rest[1..], PadTo4(value));
      PadAfterAligned(PadTo4(value), tail[0]);
      assert segs[1..] == tail;
      assert value + segs[0] == value;
    } else {
      var tail := Segments(rest[1..]);
      assert segs == [[rest[0]] + tail[0]] + tail[1..];
      ScanIsSegmentwise(rest[1..], value + [rest[0]]);
      assert value + [rest[0]] + tail[0] == value + segs[0];
    }
  }

  /** The encoded value is the padded segments of the text after the markers, joined. */
  lemma ConvertIsPaddedSegments(path: string)
    ensures Convert(path).value == JoinPadded(Segments(path[|Convert(path).prefix|..]))
  {
    var rest := path[MarkerRun(path)..];
    ScanIsSegmentwise(rest, []);
    assert [] + Segments(rest)[0] == Segments(rest)[0];
  }

  /** The segments hold exactly the non-dot characters, in order. */
  lemma {:induction false} SegmentsKeepCharacters(s: string)
    ensures Flatten(Segments(s)) == NonDots(s)
  {
    if |s| > 0 {
      var tail := Segments(s[1..]);
      SegmentsKeepCharacters(s[1..]);
      if s[0] == '.' {
        assert Segments(s)[1..] == tail;
        assert Flatten(Segments(s)) == [] + Flatten(tail);
      } else {
        assert Flatten(tail) == tail[0] + Flatten(tail[1..]);
        assert Segments(s)[1..] == tail[1..];
        assert Flatten(Segments(s)) == ([s[0]] + tail[0]) + Flatten(tail[1..]);
      }
    }
  }

  /** With every segment already a multiple of four long, no padding is inserted. */
  predicate AllAligned(segs: seq<string>) {
    forall j :: 0 <= j < |segs| ==> |segs[j]| % 4 == 0
  }

  lemma {:induction false} AlignedSegmentsNeedNoPadding(segs: seq<string>)
    requires AllAligned(segs)
    ensures JoinPadded(segs) == Flatten(segs)
  {
    if |segs| > 0 {
      AlignedSegmentsNeedNoPadding(segs[1..]);
      assert PadTo4(segs[0]) == segs[0];
    }
  }

  /**
    A path whose segments are all full four-character names (`_SB_.PCI0.VGA_`)
    encodes to its non-dot characters with nothing inserted.
   */
  lemma FullSegmentsEncodeVerbatim(path: string)
    requires AllAligned(Segments(path[MarkerRun(path)..]))
    ensures Convert(path).value == NonDots(path[MarkerRun(path)..])
  {
    var rest := path[MarkerRun(path)..];
    ConvertIsPaddedSegments(path);
    AlignedSegmentsNeedNoPadding(Segments(rest));
    SegmentsKeepCharacters(rest);
  }

  /** Scanning a run of non-dot characters only appends them. */
  lemma {:induction false} ScanRun(a: string, b: string, value: string)
    requires '.' !in a
    ensures Scan(a + b, value) == Scan(b, value + a)
    decreases |a|
  {
    if |a| > 0 {
      assert (a + b)[0] == a[0] && (a + b)[1..] == a[1..] + b;
      ScanRun(a[1..], b, value + [a[0]]);
      assert value + [a[0]] + a[1..] == value + a;
    } else {
      assert a + b == b && value + a == value;
    }
  }

  /** A dot ends the current segment: everything written so far is padded. */
  lemma ScanSegment(a: string, b: string, value: string)
    requires '.' !in a
    ensures Scan(a + "." + b, value) == Scan(b, PadTo4(value + a))
  {
    ScanRun(a, "." + b, value);
    assert a + "." + b == a + ("." + b);
    assert ("." + b)[1..] == b;
  }

  /** The last segment is padded at the end of the input. */
  lemma ScanLast(a: string, value: string)
    requires '.' !in a
    ensures Scan(a, value) == PadTo4(value + a)
  {
    ScanRun(a, [], value);
    assert a + [] == a;
  }

  /** A four-aligned value needs no padding. */
  lemma PadAligned(s: string)
    requires |s| % 4 == 0
    ensures PadTo4(s) == s
  {
    assert Underscores(0) == [];
  }

  /** A value one short of alignment gets a single underscore. */
  lemma PadOne(s: string)
    requires |s| % 4 == 3
    ensures PadTo4(s) == s + "_"
  {
    assert Underscores(1) == "_";
  }

  /** Three full segments are written out verbatim, without separators. */
  lemma ScanThreeFull(a: string, b: string, c: string)
    requires |a| == 4 && |b| == 4 && |c| == 4
    requires '.' !in a && '.' !in b && '.' !in c
    ensures Scan(a + "." + b + "." + c, "") == a + b + c
  {
    PadAligned(a);
    PadAligned(a + b);
    PadAligned(a + b + c);
    assert a + "." + b + "." + c == a + "." + (b + "." + c);
    ScanSegment(a, b + "." + c, "");
    assert "" + a == a;
    ScanSegment(b, c, a);
    ScanLast(c, a + b);
  }

  lemma ExampleFullNames(p: string)
    requires p == "_SB_.PCI0.VGA_"
    ensures Convert(p) == NamePath("", "_SB_PCI0VGA_")
  {
    var a, b, c := "_SB_", "PCI0", "VGA_";
    assert MarkerRun(p) == 0 && p[..0] == "" && p[0..] == p;
    assert p == a + "." + b + "." + c;
    ScanThreeFull(a, b, c);
  }

  lemma ExampleRootPath(p: string)
    requires p == "\\_SB.PCI0"
    ensures Convert(p) == NamePath("\\", "_SB_PCI0")
  {
    var a, b := "_SB", "PCI0";
    assert MarkerRun(p) == 1 && p[..1] == "\\";
    assert p[1..] == a + "." + b;
    assert Scan(p[1..], "") == "_SB_PCI0" by {
      PadOne(a);
      PadAligned("_SB_" + b);
      assert "" + a == a;
      ScanSegment(a, b, "");
      ScanLast(b, "_SB_");
    }
  }

  lemma ExampleParentPath()
    ensures Convert("^^FOO") == NamePath("^^", "FOO_")
  {
  }

  lemma ExampleResolveSentinel()
    ensures ResolvePathName("FOO") == NamePath("x", "FOO_")
  {
  }

  /**
    As written, the sentinel is only `x` when the stack byte after it happens
    to be zero: any stale byte there reaches the store as part of the prefix.
   */
  lemma StaleBytesReachTheStore(path: string, stale: string)
    requires Convert(path).prefix == [] && '\0' !in stale
    ensures ResolvePrefixAsWritten(path, stale) == ResolvePathName(path) <==> stale == []
  {
  }

  /** `FOO` with a stale `Q` after the sentinel resolves with prefix `xQ`. */
  lemma ExampleStaleSentinel()
    ensures ResolvePrefixAsWritten("FOO", "Q").prefix == "xQ"
    ensures ResolvePrefixAsWritten("FOO", "Q").prefix != ResolvePathName("FOO").prefix
  {
  }

  /** With markers, or on a zeroed stack, the code as written gives the intended prefix. */
  lemma AsWrittenAgreesWithoutStaleBytes(path: string, stale: string)
    requires '\0' !in stale
    ensures ResolvePrefixAsWritten(path, []) == ResolvePathName(path)
    ensures Convert(path).prefix != [] ==> ResolvePrefixAsWritten(path, stale) == ResolvePathName(path)
  {
  }
}

=== FILE: option.dfy ===
/** A possibly-absent value: the model's stand-in for a nullable C pointer. */
module Optional {

  datatype Option<+T> = None | Some(value: T)

}

=== FILE: pnp.dfy ===
/**
  Device identity: the EISA PNP ID encoding (`char_to_hex`, `sabi_eisaid`)
  and `_HID`/`_CID` matching (`sabi_check_pnp_id`).

  IDs are C strings, so they are modelled as byte sequences. The packing is
  done in `bv32` exactly as the C `uint32_t` arithmetic does it, wrap-around
  included; the byte swap reads the packed value's bytes in memory order of a
  little-endian host.
 */
module DeviceId {
  import opened Optional
  import opened Values
  import opened Eval

  type Byte = bv8

  predicate IsDecimal(c: Byte) { 0x30 <= c <= 0x39 }     // '0'..'9'
  predicate IsUpperHex(c: Byte) { 0x41 <= c <= 0x46 }    // 'A'..'F'
  predicate IsLowerHex(c: Byte) { 0x61 <= c <= 0x66 }    // 'a'..'f'

  predicate IsHexDigit(c: Byte) {
    IsDecimal(c) || IsUpperHex(c) || IsLowerHex(c)
  }

  /** `char_to_hex`: the value of a hexadecimal digit of either case, 0 for anything else. */
  function CharToHex(c: Byte): (h: Byte)
    ensures h < 16
    ensures !IsHexDigit(c) ==> h == 0
  {
    if IsDecimal(c) then c - 0x30
    else if IsUpperHex(c) then c - 0x41 + 10
    else if IsLowerHex(c) then c - 0x61 + 10
    else 0
  }

  /** The upper-case hexadecimal digit for `n`. */
  function HexChar(n: Byte): (c: Byte)
    requires n < 16
    ensures IsDecimal(c) || IsUpperHex(c)
  {
    if n < 10 then 0x30 + n else 0x41 + (n - 10)
  }

  function ToUpper(c: Byte): Byte {
    if IsLowerHex(c) then c - 0x20 else c
  }

  /** The bytes of `x` in memory order on a little-endian host (`bp[0]` .. `bp[3]`). */
  function MemoryBytes(x: bv32): (b: seq<Byte>)
    ensures |b| == 4
  {
    [(x & 0xFF) as Byte, ((x >> 8) & 0xFF) as Byte, ((x >> 16) & 0xFF) as Byte, ((x >> 24) & 0xFF) as Byte]
  }

  /** The swap loop: the four memory bytes, taken in memory order, shifted in from the low end. */
  function ByteSwap(x: bv32): (r: bv32)
    ensures MemoryBytes(r) == [MemoryBytes(x)[3], MemoryBytes(x)[2], MemoryBytes(x)[1], MemoryBytes(x)[0]]
  {
    var bp := MemoryBytes(x);
    var swap := bp[0] as bv32;
    var swap := (swap << 8) | (bp[1] as bv32);
    var swap := (swap << 8) | (bp[2] as bv32);
    (swap << 8) | (bp[3] as bv32)
  }

  /**
    The accumulator of `sabi_eisaid` before the swap: three letters at five
    bits each (offset from 0x40, so `A` is 1), then four hex digits at four
    bits each, in `uint32_t` arithmetic.
   */
  function Packed(id: seq<Byte>): (p: bv32)
    requires |id| >= 7
    ensures (p >> 12) & 15 == CharToHex(id[3]) as bv32 && (p >> 8) & 15 == CharToHex(id[4]) as bv32
    ensures (p >> 4) & 15 == CharToHex(id[5]) as bv32 && p & 15 == CharToHex(id[6]) as bv32
    ensures IsCompressible(id[0]) && IsCompressible(id[1]) && IsCompressible(id[2]) ==>
              && p >> 26 == (id[0] - 0x40) as bv32
              && (p >> 21) & 31 == (id[1] - 0x40) as bv32
              && (p >> 16) & 31 == (id[2] - 0x40) as bv32
  {
    var value := (id[0] as bv32) - 0x40;
    var value := (value << 5) | ((id[1] as bv32) - 0x40);
    var value := (value << 5) | ((id[2] as bv32) - 0x40);
    var value := (value << 4) | (CharToHex(id[3]) as bv32);
    var value := (value << 4) | (CharToHex(id[4]) as bv32);
    var value := (value << 4) | (CharToHex(id[5]) as bv32);
    (value << 4) | (CharToHex(id[6]) as bv32)
  }

  /** `sabi_eisaid`: the packed ID with its bytes reversed. */
  function EisaId(id: seq<Byte>): (r: bv32)
    requires |id| >= 7
    ensures ByteSwap(r) == Packed(id)
  {
    ByteSwapInvolutive(Packed(id));
    ByteSwap(Packed(id))
  }

  /** A byte whose offset from 0x40 fits in five bits: `@`, `A`..`Z`, `[`, `\`, `]`, `^`, `_`. */
  predicate IsCompressible(c: Byte) { 0x40 <= c <= 0x5F }

  /** The seven-character form `AAA####` the encoding is meant for. */
  predicate WellFormedId(id: seq<Byte>) {
    && |id| >= 7
    && IsCompressible(id[0]) && IsCompressible(id[1]) && IsCompressible(id[2])
    && IsHexDigit(id[3]) && IsHexDigit(id[4]) && IsHexDigit(id[5]) && IsHexDigit(id[6])
  }

  /** Reads the text back out of a packed word. */
  function Unpack(u: bv32): (t: seq<Byte>)
    ensures |t| == 7
  {
    [ (((u >> 26) & 31) as Byte) + 0x40,
      (((u >> 21) & 31) as Byte) + 0x40,
      (((u >> 16) & 31) as Byte) + 0x40,
      HexChar(((u >> 12) & 15) as Byte),
      HexChar(((u >> 8) & 15) as Byte),
      HexChar(((u >> 4) & 15) as Byte),
      HexChar((u & 15) as Byte) ]
  }

  /** Decodes an encoded ID back to its text, digits in upper case. */
  function EisaText(v: bv32): (t: seq<Byte>)
    ensures |t| == 7
  {
    Unpack(ByteSwap(v))
  }

  /** The first seven bytes of `id` with the hex digits in upper case. */
  function Canonical(id: seq<Byte>): seq<Byte>
    requires |id| >= 7
  {
    id[..3] + [ToUpper(id[3]), ToUpper(id[4]), ToUpper(id[5]), ToUpper(id[6])]
  }

  // ----- Lemmas about the encoding -----

  lemma ByteSwapInvolutive(x: bv32)
    ensures ByteSwap(ByteSwap(x)) == x
  {
  }

  /** `char_to_hex` inverts `HexChar` in both cases of letter. */
  lemma HexCharRoundTrip(n: Byte)
    requires n < 16
    ensures CharToHex(HexChar(n)) == n
    ensures n >= 10 ==> CharToHex(HexChar(n) + 0x20) == n
  {
  }

  /** Every hex digit is `HexChar` of its value, up to case. */
  lemma CharToHexRoundTrip(c: Byte)
    requires IsHexDigit(c)
    ensures HexChar(CharToHex(c)) == ToUpper(c)
  {
  }

  /** Three five-bit letter codes and four digits, each at its fixed offset. */
  function Layout(a: bv32, b: bv32, c: bv32, d: bv32, e: bv32, f: bv32, g: bv32): bv32 {
    (a << 26) | (b << 21) | (c << 16) | (d << 12) | (e << 8) | (f << 4) | g
  }

  /** Bit layout of the packed word: each field sits at its fixed offset. */
  lemma PackedLayout(id: seq<Byte>)
    requires WellFormedId(id)
    ensures Packed(id) == Layout((id[0] - 0x40) as bv32, (id[1] - 0x40) as bv32, (id[2] - 0x40) as bv32,
                                 CharToHex(id[3]) as bv32, CharToHex(id[4]) as bv32,
                                 CharToHex(id[5]) as bv32, CharToHex(id[6]) as bv32)
  {
  }

  /** Each field of the fixed layout reads back as itself. */
  lemma UnpackLayout(a: bv32, b: bv32, c: bv32, d: bv32, e: bv32, f: bv32, g: bv32)
    requires a < 32 && b < 32 && c < 32 && d < 16 && e < 16 && f < 16 && g < 16
    ensures Unpack(Layout(a, b, c, d, e, f, g))
         == [(a as Byte) + 0x40, (b as Byte) + 0x40, (c as Byte) + 0x40,
             HexChar(d as Byte), HexChar(e as Byte), HexChar(f as Byte), HexChar(g as Byte)]
  {
    LayoutFields(a, b, c, d, e, f, g);
  }

  /** Each field of the fixed layout can be read back by shifting and masking. */
  lemma LayoutFields(a: bv32, b: bv32, c: bv32, d: bv32, e: bv32, f: bv32, g: bv32)
    requires a < 32 && b < 32 && c < 32 && d < 16 && e < 16 && f < 16 && g < 16
    ensures var v := Layout(a, b, c, d, e, f, g);
            && (v >> 26) & 31 == a && (v >> 21) & 31 == b && (v >> 16) & 31 == c
            && (v >> 12) & 15 == d && (v >> 8) & 15 == e && (v >> 4) & 15 == f && v & 15 == g
  {
  }

  /** The letter codes and digit values a well-formed ID packs. */
  function Fields(id: seq<Byte>): (fs: seq<bv32>)
    requires WellFormedId(id)
    ensures |fs| == 7
  {
    [(id[0] - 0x40) as bv32, (id[1] - 0x40) as bv32, (id[2] - 0x40) as bv32,
     CharToHex(id[3]) as bv32, CharToHex(id[4]) as bv32, CharToHex(id[5]) as bv32, CharToHex(id[6]) as bv32]
  }

  /** The text a packed word of these fields decodes to. */
  function FieldText(fs: seq<bv32>): seq<Byte>
    requires |fs| == 7 && fs[0] < 32 && fs[1] < 32 && fs[2] < 32
    requires fs[3] < 16 && fs[4] < 16 && fs[5] < 16 && fs[6] < 16
  {
    [(fs[0] as Byte) + 0x40, (fs[1] as Byte) + 0x40, (fs[2] as Byte) + 0x40,
     HexChar(fs[3] as Byte), HexChar(fs[4] as Byte), HexChar(fs[5] as Byte), HexChar(fs[6] as Byte)]
  }

  lemma DecodeEncodedFields(id: seq<Byte>)
    requires WellFormedId(id)
    ensures EisaText(EisaId(id)) == FieldText(Fields(id))
  {
    var fs := Fields(id);
    PackedLayout(id);
    UnpackLayout(fs[0], fs[1], fs[2], fs[3], fs[4], fs[5], fs[6]);
  }

  lemma FieldTextIsCanonical(id: seq<Byte>)
    requires WellFormedId(id)
    ensures FieldText(Fields(id)) == Canonical(id)
  {
    CharToHexRoundTrip(id[3]);
    CharToHexRoundTrip(id[4]);
    CharToHexRoundTrip(id[5]);
    CharToHexRoundTrip(id[6]);
    assert Canonical(id) == [id[0], id[1], id[2], ToUpper(id[3]), ToUpper(id[4]), ToUpper(id[5]), ToUpper(id[6])];
  }

  /** Decoding an encoded well-formed ID gives the ID back (digits in upper case). */
  lemma EisaIdRoundTrip(id: seq<Byte>)
    requires WellFormedId(id)
    ensures EisaText(EisaId(id)) == Canonical(id)
  {
    DecodeEncodedFields(id);
    FieldTextIsCanonical(id);
  }

  /** `PNP0501` packs to 0x41D00501 and encodes to 0x0105D041. */
  lemma ExamplePnp0501()
    ensures Packed([0x50, 0x4E, 0x50, 0x30, 0x35, 0x30, 0x31]) == 0x41D0_0501
    ensures EisaId([0x50, 0x4E, 0x50, 0x30, 0x35, 0x30, 0x31]) == 0x0105_D041
  {
  }

  // ----- `_HID` / `_CID` matching -----

  /** The identification value, truncated to its low 32 bits, equals `id` (integers only). */
  predicate Matches(v: Value, id: bv32) {
    v.Integer? && (v.n & 0xFFFF_FFFF) as bv32 == id
  }

  /** The two identification objects `sabi_check_pnp_id` consults. */
  datatype IdObject = Hid | Cid {
    /** The object's name segment in the namespace. */
    function Name(): string {
      match this
      case Hid => "_HID"
      case Cid => "_CID"
    }
  }

  /** One identification object looked at: what it evaluated to, and the blocks involved. */
  datatype Probe = Probe(source: IdObject, value: Value, allocations: seq<Block>, freed: seq<Block>)

  datatype PnpCheck = PnpCheck(matched: bool, probes: seq<Probe>)

  /** Which objects were looked at, in order. */
  function Sources(probes: seq<Probe>): seq<IdObject> {
    seq(|probes|, i requires 0 <= i < |probes| => probes[i].source)
  }

  /** Every block the probe's evaluation allocated is freed again, each once. */
  predicate Balanced(p: Probe) {
    multiset(p.freed) == multiset(p.allocations)
  }

  /**
    Take the integer of an evaluation and clean its value at once: the clean
    frees exactly the blocks the value owns, which, for a value that owns what
    was allocated for it, are exactly those allocations.
   */
  function ReleaseProbe(source: IdObject, e: Evaluation): (p: Probe)
    requires multiset(e.resultAllocations) == Blocks(e.result)
    ensures p.source == source && p.value == e.result && p.allocations == e.resultAllocations
    ensures multiset(p.freed) == Blocks(e.result)
    ensures Balanced(p)
  {
    Probe(source, e.result, e.resultAllocations, Clean(e.result).freed)
  }

  /** Evaluate an identification object, take its integer, and release the value at once. */
  function ProbeNode(env: Env, source: IdObject, node: NodeId): (p: Probe)
    ensures p.source == source && p.value == EvalNode(env, node).result
    ensures p.allocations == EvalNode(env, node).resultAllocations
    ensures multiset(p.allocations) == Blocks(p.value) && multiset(p.freed) == Blocks(p.value)
    ensures Balanced(p)
  {
    ReleaseProbe(source, EvalNode(env, node))
  }

  /** The child `source` of `parent` exists and evaluates to an integer matching `id`. */
  ghost predicate ChildMatches(env: Env, parent: NodeId, source: IdObject, id: bv32) {
    && env.lookup(parent, source.Name()).Some?
    && Matches(EvalNode(env, env.lookup(parent, source.Name()).value).result, id)
  }

  /** The `_CID` half of `sabi_check_pnp_id`, after the probes already made. */
  function CheckCid(env: Env, parent: NodeId, id: bv32, before: seq<Probe>): (r: PnpCheck)
    ensures r.matched <==> ChildMatches(env, parent, Cid, id)
    ensures |r.probes| == |before| + (if env.lookup(parent, Cid.Name()).Some? then 1 else 0)
    ensures r.probes[..|before|] == before
    ensures |r.probes| > |before| ==> r.probes[|before|].source == Cid
    ensures |r.probes| > |before| ==> Balanced(r.probes[|before|])
    ensures Sources(r.probes) == Sources(before) + (if env.lookup(parent, Cid.Name()).Some? then [Cid] else [])
    ensures (forall i :: 0 <= i < |before| ==> Balanced(before[i])) ==>
              forall i :: 0 <= i < |r.probes| ==> Balanced(r.probes[i])
  {
    match env.lookup(parent, Cid.Name())
    case None => PnpCheck(false, before)
    case Some(cid) =>
      var p := ProbeNode(env, Cid, cid);
      ProbeDecidesMatch(env, parent, Cid, cid, id);
      assert Sources(before + [p]) == Sources(before) + [Cid];
      PnpCheck(Matches(p.value, id), before + [p])
  }

  /** Probing a child that was found decides whether it matches. */
  lemma ProbeDecidesMatch(env: Env, parent: NodeId, source: IdObject, node: NodeId, id: bv32)
    requires env.lookup(parent, source.Name()) == Some(node)
    ensures Matches(ProbeNode(env, source, node).value, id) <==> ChildMatches(env, parent, source, id)
  {
  }

  /** `sabi_check_pnp_id` once `_HID` has been found: probe it, then `_CID` on a mismatch. */
  function CheckFromHid(env: Env, parent: NodeId, id: bv32, hid: NodeId): (r: PnpCheck)
    requires env.lookup(parent, Hid.Name()) == Some(hid)
    ensures r.matched <==> ChildMatches(env, parent, Hid, id) || ChildMatches(env, parent, Cid, id)
    ensures Sources(r.probes)
         == [Hid] + (if env.lookup(parent, Cid.Name()).Some? && !ChildMatches(env, parent, Hid, id) then [Cid] else [])
    ensures forall i :: 0 <= i < |r.probes| ==> Balanced(r.probes[i])
  {
    var p := ProbeNode(env, Hid, hid);
    ProbeDecidesMatch(env, parent, Hid, hid, id);
    assert Sources([p]) == [Hid];
    if Matches(p.value, id) then PnpCheck(true, [p])
    else CheckCid(env, parent, id, [p])
  }

  /**
    `sabi_check_pnp_id`: `_HID` is consulted first and `_CID` only when `_HID`
    is absent or does not match; every evaluated value is cleaned.
   */
  function CheckPnpId(env: Env, parent: NodeId, id: bv32): (r: PnpCheck)
    ensures r.matched <==> ChildMatches(env, parent, Hid, id) || ChildMatches(env, parent, Cid, id)
    ensures Sources(r.probes)
         == (if env.lookup(parent, Hid.Name()).Some? then [Hid] else [])
          + (if env.lookup(parent, Cid.Name()).Some? && !ChildMatches(env, parent, Hid, id) then [Cid] else [])
    ensures forall i :: 0 <= i < |r.probes| ==> Balanced(r.probes[i])
  {
    match env.lookup(parent, Hid.Name())
    case None => CheckCid(env, parent, id, [])
    case Some(hid) => CheckFromHid(env, parent, id, hid)
  }

  /** `p` is the evaluation of the child of `parent` it names, cleaned at once. */
  ghost predicate IsEvaluation(env: Env, parent: NodeId, p: Probe) {
    && env.lookup(parent, p.source.Name()).Some?
    && p == ProbeNode(env, p.source, env.lookup(parent, p.source.Name()).value)
  }

  /** The `_CID` probe, if any, is the evaluation of `_CID`. */
  lemma CidProbesAreEvaluations(env: Env, parent: NodeId, id: bv32, before: seq<Probe>)
    requires forall p :: p in before ==> IsEvaluation(env, parent, p)
    ensures forall p :: p in CheckCid(env, parent, id, before).probes ==> IsEvaluation(env, parent, p)
  {
    match env.lookup(parent, Cid.Name())
    case None =>
    case Some(cid) =>
      var c := ProbeNode(env, Cid, cid);
      assert CheckCid(env, parent, id, before).probes == before + [c];
      assert IsEvaluation(env, parent, c);
  }

  /** Once `_HID` is found, its probe and any `_CID` probe after it are evaluations. */
  lemma HidProbesAreEvaluations(env: Env, parent: NodeId, id: bv32, hid: NodeId)
    requires env.lookup(parent, Hid.Name()) == Some(hid)
    ensures forall p :: p in CheckFromHid(env, parent, id, hid).probes ==> IsEvaluation(env, parent, p)
  {
    var h := ProbeNode(env, Hid, hid);
    assert IsEvaluation(env, parent, h);
    if Matches(h.value, id) {
      assert CheckFromHid(env, parent, id, hid).probes == [h];
    } else {
      assert CheckFromHid(env, parent, id, hid) == CheckCid(env, parent, id, [h]);
      CidProbesAreEvaluations(env, parent, id, [h]);
    }
  }

  /**
    Every probe of `sabi_check_pnp_id` is the evaluation of a child that
    exists, with its value cleaned at once: what was allocated for the value is
    what the evaluation allocated, and it is freed in full.
   */
  lemma ProbesAreEvaluations(env: Env, parent: NodeId, id: bv32)
    ensures forall p :: p in CheckPnpId(env, parent, id).probes ==>
              && env.lookup(parent, p.source.Name()).Some?
              && p == ProbeNode(env, p.source, env.lookup(parent, p.source.Name()).value)
  {
    match env.lookup(parent, Hid.Name())
    case None =>
      CidProbesAreEvaluations(env, parent, id, []);
    case Some(hid) =>
      HidProbesAreEvaluations(env, parent, id, hid);
  }
}

=== FILE: tree.dfy ===
/**
  The stateless pre-order cursor over the namespace tree (`sabi_next_node`).

  The C tree is intrusive: every node has `child` (first child), `next` (next
  sibling) and `parent` pointers. Here the nodes live in an arena and the
  pointers become indices. The tree shape the external tree builder guarantees
  is the `WellFormed` predicate; it is stated relative to a depth assignment,
  which also serves as the termination measure of the upward climb.
 */
module TreeWalk {
  import opened Optional

  type Link = Option<nat>

  datatype TreeNode = TreeNode(parent: Link, child: Link, next: Link)

  datatype Tree = Tree(nodes: seq<TreeNode>, root: nat)

  predicate InRange(t: Tree, l: Link) {
    l.None? || l.value < |t.nodes|
  }

  /** The links of node `i` agree with each other and with `depth`. */
  ghost predicate NodeOk(t: Tree, depth: seq<nat>, i: nat)
    requires |depth| == |t.nodes| && i < |t.nodes|
  {
    var nd := t.nodes[i];
    && InRange(t, nd.parent) && InRange(t, nd.child) && InRange(t, nd.next)
    && (i != t.root ==> nd.parent.Some?)
    && (nd.parent.Some? ==> depth[i] == depth[nd.parent.value] + 1)
    && (nd.child.Some? ==> t.nodes[nd.child.value].parent == Some(i))
    && (nd.next.Some? ==> t.nodes[nd.next.value].parent == nd.parent)
  }

  /**
    A single-rooted, acyclic tree: the root has neither parent nor sibling,
    every other node has a parent one level up, first children point back to
    their parent, and siblings share a parent.
   */
  ghost predicate WellFormed(t: Tree, depth: seq<nat>) {
    && |depth| == |t.nodes|
    && t.root < |t.nodes|
    && t.nodes[t.root].parent.None?
    && t.nodes[t.root].next.None?
    && forall i :: 0 <= i < |t.nodes| ==> NodeOk(t, depth, i)
  }

  /** `a` is reached from `d` by following one or more parent links. */
  ghost predicate IsAncestor(t: Tree, depth: seq<nat>, a: nat, d: nat)
    requires WellFormed(t, depth) && d < |t.nodes|
    decreases depth[d]
  {
    assert NodeOk(t, depth, d);
    match t.nodes[d].parent
    case None => false
    case Some(p) => p == a || IsAncestor(t, depth, a, p)
  }

  ghost predicate AncestorOrSelf(t: Tree, depth: seq<nat>, a: nat, d: nat)
    requires WellFormed(t, depth) && d < |t.nodes|
  {
    a == d || IsAncestor(t, depth, a, d)
  }

  /**
    The `else` branch of `sabi_next_node`: climb through parents until a node
    with a next sibling is found and move to that sibling; past the root the
    walk ends.
   */
  function Climb(t: Tree, n: nat, ghost depth: seq<nat>): (r: Link)
    requires WellFormed(t, depth) && n < |t.nodes|
    ensures InRange(t, r)
    ensures r.Some? ==> t.nodes[r.value].parent.Some? && depth[r.value] <= depth[n]
    decreases depth[n]
  {
    assert NodeOk(t, depth, n);
    if t.nodes[n].next.Some? then
      assert NodeOk(t, depth, t.nodes[n].next.value);
      t.nodes[n].next
    else
      match t.nodes[n].parent
      case None => None
      case Some(p) => Climb(t, p, depth)
  }

  /**
    `sabi_next_node(node, child)`: `None` starts a walk at the root's first
    child; otherwise move to the first child when `descend` is set and there
    is one, else to the next sibling, else to the next sibling of the nearest
    ancestor that has one.
   */
  function Next(t: Tree, node: Link, descend: bool, ghost depth: seq<nat>): (r: Link)
    requires WellFormed(t, depth) && InRange(t, node)
    ensures InRange(t, r)
    ensures r != Some(t.root)
    ensures node.None? ==> r == t.nodes[t.root].child
    ensures node.None? ==> r.Some? ==> t.nodes[r.value].parent == Some(t.root)
    ensures node.Some? && descend && t.nodes[node.value].child.Some? ==>
              r == t.nodes[node.value].child && t.nodes[r.value].parent == node
  {
    match node
    case None =>
      assert NodeOk(t, depth, t.root);
      t.nodes[t.root].child
    case Some(n) =>
      assert NodeOk(t, depth, n);
      if descend && t.nodes[n].child.Some? then
        t.nodes[n].child
      else if t.nodes[n].next.Some? then
        assert NodeOk(t, depth, t.nodes[n].next.value);
        t.nodes[n].next
      else
        Climb(t, n, depth)
  }

  // ----- Lemmas -----

  /** Ancestors sit strictly higher in the tree. */
  lemma {:induction false} AncestorIsHigher(t: Tree, depth: seq<nat>, a: nat, d: nat)
    requires WellFormed(t, depth) && d < |t.nodes|
    requires IsAncestor(t, depth, a, d)
    ensures a < |t.nodes| && depth[a] < depth[d]
    decreases depth[d]
  {
    assert NodeOk(t, depth, d);
    var p := t.nodes[d].parent.value;
    assert NodeOk(t, depth, p);
    if p != a {
      AncestorIsHigher(t, depth, a, p);
    }
  }

  /**
    The climb lands on the next sibling of the nearest node, among `n` and its
    ancestors, that has one; it ends the walk exactly when none of them has a
    next sibling.
   */
  lemma {:induction false} ClimbFindsNearestSibling(t: Tree, n: nat, depth: seq<nat>)
    requires WellFormed(t, depth) && n < |t.nodes|
    ensures Climb(t, n, depth).None? ==>
              forall m :: 0 <= m < |t.nodes| && AncestorOrSelf(t, depth, m, n) ==> t.nodes[m].next.None?
    ensures Climb(t, n, depth).Some? ==>
              exists m :: 0 <= m < |t.nodes| && AncestorOrSelf(t, depth, m, n)
                && t.nodes[m].next == Climb(t, n, depth)
                && forall k :: 0 <= k < |t.nodes| && AncestorOrSelf(t, depth, k, n) && depth[k] > depth[m]
                     ==> t.nodes[k].next.None?
    decreases depth[n]
  {
    assert NodeOk(t, depth, n);
    if t.nodes[n].next.Some? {
      forall k | 0 <= k < |t.nodes| && IsAncestor(t, depth, k, n)
        ensures depth[k] < depth[n]
      {
        AncestorIsHigher(t, depth, k, n);
      }
      assert AncestorOrSelf(t, depth, n, n);
    } else {
      match t.nodes[n].parent
      case None =>
        forall m | 0 <= m < |t.nodes| && AncestorOrSelf(t, depth, m, n)
          ensures t.nodes[m].next.None?
        {
          assert m == n;
        }
      case Some(p) =>
        ClimbFindsNearestSibling(t, p, depth);
        if Climb(t, p, depth).Some? {
          var m :| 0 <= m < |t.nodes| && AncestorOrSelf(t, depth, m, p)
                && t.nodes[m].next == Climb(t, p, depth)
                && forall k :: 0 <= k < |t.nodes| && AncestorOrSelf(t, depth, k, p) && depth[k] > depth[m]
                     ==> t.nodes[k].next.None?;
          assert AncestorOrSelf(t, depth, m, n);
          forall k | 0 <= k < |t.nodes| && AncestorOrSelf(t, depth, k, n) && depth[k] > depth[m]
            ensures t.nodes[k].next.None?
          {
            if k != n {
              assert AncestorOrSelf(t, depth, k, p);
            }
          }
        } else {
          forall m | 0 <= m < |t.nodes| && AncestorOrSelf(t, depth, m, n)
            ensures t.nodes[m].next.None?
          {
            if m != n {
              assert AncestorOrSelf(t, depth, m, p);
            }
          }
        }
    }
  }

  /**
    Without descending (or from a leaf), the cursor leaves the subtree of `n`: the node it
    returns is never a descendant of `n`.
   */
  lemma NextSkipsSubtree(t: Tree, n: nat, descend: bool, depth: seq<nat>)
    requires WellFormed(t, depth) && n < |t.nodes|
    requires !descend || t.nodes[n].child.None?
    ensures var r := Next(t, Some(n), descend, depth);
            r.Some? ==> !IsAncestor(t, depth, n, r.value)
  {
    var r := Next(t, Some(n), descend, depth);
    assert NodeOk(t, depth, n);
    if r.Some? {
      assert IsAncestor(t, depth, n, r.value) ==> depth[n] < depth[r.value] by {
        if IsAncestor(t, depth, n, r.value) {
          AncestorIsHigher(t, depth, n, r.value);
        }
      }
      assert depth[r.value] <= depth[n] by {
        if t.nodes[n].next.Some? {
          assert NodeOk(t, depth, r.value);
        }
      }
    }
  }

  /**
    Without descending (or from a leaf), the cursor moves to the next sibling
    of the nearest node among `n` and its ancestors that has one, and returns
    `None` exactly when none of them has a next sibling.
   */
  lemma NextFindsNearestSibling(t: Tree, n: nat, descend: bool, depth: seq<nat>)
    requires WellFormed(t, depth) && n < |t.nodes|
    requires !descend || t.nodes[n].child.None?
    ensures var r := Next(t, Some(n), descend, depth);
            && (r.None? <==>
                  forall m :: 0 <= m < |t.nodes| && AncestorOrSelf(t, depth, m, n) ==> t.nodes[m].next.None?)
            && (r.Some? ==>
                  exists m :: 0 <= m < |t.nodes| && AncestorOrSelf(t, depth, m, n)
                    && t.nodes[m].next == r
                    && forall k :: 0 <= k < |t.nodes| && AncestorOrSelf(t, depth, k, n) && depth[k] > depth[m]
                         ==> t.nodes[k].next.None?)
  {
    assert NodeOk(t, depth, n);
    ClimbFindsNearestSibling(t, n, depth);
  }

  /** A walk over a root without children ends at once. */
  lemma ChildlessRootEndsWalk(t: Tree, depth: seq<nat>, descend: bool)
    requires WellFormed(t, depth) && t.nodes[t.root].child.None?
    ensures Next(t, None, descend, depth).None?
  {
  }
}

=== FILE: values.dfy ===
/**
  The runtime value model and its lifecycle (`sabi_clone_data`,
  `sabi_clean_data`).

  Host allocations are not modelled as a heap. Instead every clone reports the
  blocks it allocates and every clean reports the blocks it frees, in program
  order, so that "every block is released exactly once" becomes an equation
  between the two reports.
 */
module Values {

  type FieldId = nat

  /** `sabi_data_t`: the tagged runtime value. */
  datatype Value =
    | Null
    | Integer(n: bv64)
    | Str(text: string)
    | Buffer(bytes: seq<bv8>)
    | BufferField(field: FieldId)
    | Package(elems: seq<Value>)

  /**
    A host allocation: the element array of a package (`count` elements) or the
    byte storage of a buffer (`size` bytes).
   */
  datatype Block = ElementArray(count: nat) | ByteStore(size: nat)

  /** The blocks a value owns, with multiplicity. */
  function Blocks(v: Value): multiset<Block>
    decreases v
  {
    match v
    case Package(es) => multiset{ElementArray(|es|)} + BlocksAll(es)
    case Buffer(bytes) => multiset{ByteStore(|bytes|)}
    case _ => multiset{}
  }

  function BlocksAll(es: seq<Value>): multiset<Block>
    decreases es
  {
    if |es| == 0 then multiset{} else Blocks(es[0]) + BlocksAll(es[1..])
  }

  /** No `BufferField` occurs anywhere in `v`. */
  predicate FieldFree(v: Value)
    decreases v
  {
    match v
    case BufferField(_) => false
    case Package(es) => forall i :: 0 <= i < |es| ==> FieldFree(es[i])
    case _ => true
  }

  /** The result of a clone: the copy and the blocks allocated for it, in order. */
  datatype Copy = Copy(value: Value, allocations: seq<Block>)

  datatype Copies = Copies(values: seq<Value>, allocations: seq<Block>)

  /** The result of a clean: the value left behind and the blocks freed, in order. */
  datatype Release = Release(value: Value, freed: seq<Block>)

  /**
    Deep copy of `v`. A package gets a fresh element array (allocated before
    its elements are cloned), a buffer fresh byte storage; a buffer field is
    read through `read` and becomes an integer; every other tag is copied.
   */
  function Clone(v: Value, read: FieldId -> bv64): (c: Copy)
    ensures multiset(c.allocations) == Blocks(v)
    ensures Blocks(c.value) == Blocks(v)
    ensures FieldFree(c.value)
    ensures c.value.Package? <==> v.Package?
    ensures c.value.Package? ==> |c.value.elems| == |v.elems|
    ensures v.Package? ==> |c.allocations| > 0 && c.allocations[0] == ElementArray(|v.elems|)
    ensures c.value.Buffer? <==> v.Buffer?
    ensures c.value.Buffer? ==> c.value.bytes == v.bytes
    ensures v.BufferField? ==> c.value == Integer(read(v.field))
    ensures v.Null? || v.Integer? || v.Str? ==> c.value == v
    decreases v, 2
  {
    match v
    case Package(es) => ClonePackage(es, read)
    case Buffer(bytes) => Copy(Buffer(bytes), [ByteStore(|bytes|)])
    case BufferField(f) => Copy(Integer(read(f)), [])
    case _ => Copy(v, [])
  }

  /** A package clone: its element array first, then the element loop. */
  function ClonePackage(es: seq<Value>, read: FieldId -> bv64): (c: Copy)
    ensures c.value.Package? && |c.value.elems| == |es|
    ensures forall i :: 0 <= i < |es| ==> c.value.elems[i] == Clone(es[i], read).value
    ensures |c.allocations| > 0 && c.allocations[0] == ElementArray(|es|)
    ensures multiset(c.allocations) == Blocks(Package(es))
    ensures Blocks(c.value) == Blocks(Package(es))
    ensures FieldFree(c.value)
    decreases es, 1
  {
    var cs := CloneAll(es, read);
    var allocations := [ElementArray(|es|)] + cs.allocations;
    assert multiset(allocations) == multiset{ElementArray(|es|)} + multiset(cs.allocations);
    Copy(Package(cs.values), allocations)
  }

  /** The element loop of a package clone. */
  function CloneAll(es: seq<Value>, read: FieldId -> bv64): (cs: Copies)
    ensures |cs.values| == |es|
    ensures forall i :: 0 <= i < |es| ==> cs.values[i] == Clone(es[i], read).value
    ensures multiset(cs.allocations) == BlocksAll(es)
    ensures BlocksAll(cs.values) == BlocksAll(es)
    ensures forall i :: 0 <= i < |cs.values| ==> FieldFree(cs.values[i])
    decreases es, 0
  {
    if |es| == 0 then Copies([], [])
    else
      var head := Clone(es[0], read);
      var tail := CloneAll(es[1..], read);
      var vs := [head.value] + tail.values;
      assert vs[1..] == tail.values;
      Copies(vs, head.allocations + tail.allocations)
  }

  /**
    Deep release of `v`: a package releases its elements and then its element
    array, a buffer its byte storage. The value is left `Null`.
   */
  function Clean(v: Value): (r: Release)
    ensures r.value == Null
    ensures multiset(r.freed) == Blocks(v)
    ensures v.Package? ==> |r.freed| > 0 && r.freed[|r.freed| - 1] == ElementArray(|v.elems|)
    decreases v
  {
    match v
    case Package(es) => Release(Null, CleanAll(es) + [ElementArray(|es|)])
    case Buffer(bytes) => Release(Null, [ByteStore(|bytes|)])
    case _ => Release(Null, [])
  }

  /** The element loop of a package clean. */
  function CleanAll(es: seq<Value>): (freed: seq<Block>)
    ensures multiset(freed) == BlocksAll(es)
    decreases es
  {
    if |es| == 0 then [] else Clean(es[0]).freed + CleanAll(es[1..])
  }

  /** The outcome of `sabi_clone_data(dptr, sptr)` on a store of value slots. */
  datatype SlotCopy = SlotCopy(slots: seq<Value>, allocations: seq<Block>)

  /**
    `sabi_clone_data` with its identity guard: copying a slot onto itself
    changes nothing and allocates nothing. Otherwise the destination is
    overwritten with a deep copy of the source (its old contents are not
    released: that is the caller's business).
   */
  function CloneSlot(slots: seq<Value>, dst: nat, src: nat, read: FieldId -> bv64): (r: SlotCopy)
    requires dst < |slots| && src < |slots|
    ensures |r.slots| == |slots|
    ensures dst == src ==> r.slots == slots && r.allocations == []
    ensures dst != src ==> r.slots[dst] == Clone(slots[src], read).value
    ensures dst != src ==> multiset(r.allocations) == Blocks(slots[src])
    ensures forall i :: 0 <= i < |slots| && i != dst ==> r.slots[i] == slots[i]
  {
    if dst == src then SlotCopy(slots, [])
    else
      var c := Clone(slots[src], read);
      SlotCopy(slots[dst := c.value], c.allocations)
  }

  // ----- Lemmas -----

  /**
    The central resource-safety property: cleaning a clone frees exactly the
    blocks the clone allocated, each once, for any nesting of packages
    (empty ones included).
   */
  lemma CloneThenCleanBalances(v: Value, read: FieldId -> bv64)
    ensures multiset(Clean(Clone(v, read).value).freed) == multiset(Clone(v, read).allocations)
  {
  }

  /**
    A package is cloned element by element: element i of the copy is the clone
    of element i, so everything `Clone` promises holds at every depth (a buffer
    field nested in a package becomes an integer, nested bytes are kept).
   */
  lemma CloneIsElementwise(v: Value, read: FieldId -> bv64)
    requires v.Package?
    ensures Clone(v, read).value.Package?
    ensures |Clone(v, read).value.elems| == |v.elems|
    ensures forall i :: 0 <= i < |v.elems| ==> Clone(v, read).value.elems[i] == Clone(v.elems[i], read).value
  {
    assert Clone(v, read) == ClonePackage(v.elems, read);
  }

  /** A buffer field nested in a package is read and copied as an integer. */
  lemma ExampleNestedField(read: FieldId -> bv64)
    ensures Clone(Package([BufferField(0)]), read).value == Package([Integer(read(0))])
  {
    CloneIsElementwise(Package([BufferField(0)]), read);
  }

  /** Cleaning a value that owns nothing frees nothing; in particular `Null`. */
  lemma CleanNullFreesNothing()
    ensures Clean(Null).freed == []
  {
  }

  /** Without buffer fields, a clone is an exact copy. */
  lemma {:induction false} CloneOfFieldFreeIsEqual(v: Value, read: FieldId -> bv64)
    requires FieldFree(v)
    ensures Clone(v, read).value == v
    decreases v
  {
    match v
    case Package(es) =>
      var cs := CloneAll(es, read).values;
      forall i | 0 <= i < |es|
        ensures cs[i] == es[i]
      {
        CloneOfFieldFreeIsEqual(es[i], read);
      }
      assert cs == es;
    case _ =>
  }

  /** Cloning is idempotent: a clone of a clone is the clone itself. */
  lemma CloneIsIdempotent(v: Value, read: FieldId -> bv64)
    ensures Clone(Clone(v, read).value, read).value == Clone(v, read).value
  {
    CloneOfFieldFreeIsEqual(Clone(v, read).value, read);
  }
}
